=== FILE: README.md ===
# Required-filter enforcement for the MongoDB connector, in Dafny

This project models `FilterEnforcer` from the Trino MongoDB connector. The
enforcer is a guardrail that runs before the connector fetches from a
collection. It has three parts:

- **Configuration parsing (the constructor).** The required-filters setting, for
  example `"orders:tenantId,orders:region"`, becomes a registry. The registry
  maps each collection name to the ordered list of field names it requires.
  A missing (null) setting gives an empty registry.
- **The containment search (`contains`).** This is a recursion over the query's
  filter. A BSON document contains a field when the field is one of its keys or
  one of its values contains it. Anything iterable contains it when one of its
  elements does. Every other object is a leaf and contains nothing.
- **The check (`checkAndRaiseIfInvalid`).** A collection without a registry
  entry always passes. Otherwise the required fields are walked in order, null
  entries are skipped, and the first field the filter does not contain rejects
  the query. The rejection names the collection and that field.

Modules:

- `Wrappers` holds `Option` (a nullable Java reference) and `Result`.
- `JavaSplit` models Java's `String.split` for a one-character separator that
  is not a regex metacharacter, with limit 0. This is the JDK fast path. If the
  separator does not occur, the result is the string itself, so `""` gives
  `[""]`. Otherwise the string is cut at every separator and trailing empty
  pieces are removed. Leading and interior empty pieces are kept. The parser's
  error behaviour depends on these rules. `SplitLoop` is the JDK loop and is
  proved equal to the functional `Split`.
- `PredicateTree` holds the filter tree `Value = Doc | Seq | Scalar`, the
  search `Contains`, the reference set `AllKeys` of every key at any depth,
  and `Search`. `Search` is the search as written in Java: a key lookup, then
  in-order loops that return early.
- `FilterConfig` holds the constructor (`Parse`, `AddEntries`) and the
  reference description of what a configuration means: `CollectionsOf`,
  `FieldsFor`, and `FirstMalformed` for the entry a failure names.
- `FilterEnforcer` holds the check (`Check`, `FirstUnmet`), the Java-shaped loop
  `CheckLoop`, and the end-to-end property `ConfiguredCheck`.
- `Scenarios` works through concrete configurations and filters.

The parser's edge cases, as the code behaves:

- An empty middle entry (`"a:x,,b:y"`) makes construction fail. It is not
  skipped.
- Trailing commas are accepted (`"orders:tenantId,"`). A setting made only of
  commas (`",,"`) has no entries and gives an empty registry.
- Empty tokens are not rejected in general. `"orders:"` fails only because the
  split drops its trailing empty token. `":f"` registers `f` for the
  collection named `""`, and `"a::b"` registers the empty field name for `a`.
- Tokens past the second are ignored: `"c:f:g"` registers `f` for `c`.
- Nothing is trimmed.

## Model

| member | source | states |
|---|---|---|
| JavaSplit.SplitLoop | plugin/trino-mongodb/src/main/java/io/trino/plugin/mongodb/FilterEnforcer.java:36-37 | the split loop returns exactly the functional `Split`: no separator gives the input itself, otherwise the raw pieces minus trailing empty ones |
| JavaSplit.CollectPieces | plugin/trino-mongodb/src/main/java/io/trino/plugin/mongodb/FilterEnforcer.java:36-37 | the JDK cutting loop finds a separator iff one occurs, and its pieces plus the final remainder are exactly the raw pieces |
| JavaSplit.DropTrailingLoop | plugin/trino-mongodb/src/main/java/io/trino/plugin/mongodb/FilterEnforcer.java:36-37 | the JDK loop that shrinks the result size removes exactly the trailing empty pieces |
| JavaSplit.JoinRawSplit | plugin/trino-mongodb/src/main/java/io/trino/plugin/mongodb/FilterEnforcer.java:36-37 | putting the separator back between the raw pieces rebuilds the string, and no piece holds the separator |
| JavaSplit.RawSplitJoin | plugin/trino-mongodb/src/main/java/io/trino/plugin/mongodb/FilterEnforcer.java:36-37 | the raw split (cut at every separator, nothing dropped) of separator-free pieces joined by the separator gives back exactly those pieces |
| JavaSplit.IndexFrom | plugin/trino-mongodb/src/main/java/io/trino/plugin/mongodb/FilterEnforcer.java:36-37 | the position reported holds the separator and no earlier position from the start does; -1 means the rest holds no separator |
| JavaSplit.Split | plugin/trino-mongodb/src/main/java/io/trino/plugin/mongodb/FilterEnforcer.java:36-37 | no separator gives the input itself; otherwise the result is a prefix of the raw pieces, only empty pieces are dropped and the last kept piece is non-empty; no piece holds the separator |
| JavaSplit.SplitJoin | plugin/trino-mongodb/src/main/java/io/trino/plugin/mongodb/FilterEnforcer.java:36-37 | splitting joined separator-free pieces gives the pieces back, less trailing empty ones, unless there is just one piece and it is empty (`""` splits to `[""]`) |
| FilterConfig.EntriesSplit | plugin/trino-mongodb/src/main/java/io/trino/plugin/mongodb/FilterEnforcer.java:36 | `split(",")`: a setting without a comma is one entry; otherwise the entries are the pieces between commas, cut after the last non-empty one, so only trailing empty entries are dropped |
| FilterConfig.TokensSplit | plugin/trino-mongodb/src/main/java/io/trino/plugin/mongodb/FilterEnforcer.java:37 | `split(":")`: an entry without a colon is one token; otherwise the tokens are the pieces between colons, cut after the last non-empty one, so only trailing empty tokens are dropped |
| FilterConfig.Register | plugin/trino-mongodb/src/main/java/io/trino/plugin/mongodb/FilterEnforcer.java:38-39 | computeIfAbsent-then-add: the collection's list (empty if absent) gains the field at its end, and no other list changes |
| FilterConfig.AddEntries | plugin/trino-mongodb/src/main/java/io/trino/plugin/mongodb/FilterEnforcer.java:36-40 | fails iff some entry has fewer than two tokens, naming the first such entry; otherwise adds exactly the collections the entries name and extends each list by that collection's second tokens in entry order, duplicates kept |
| FilterConfig.Parse | plugin/trino-mongodb/src/main/java/io/trino/plugin/mongodb/FilterEnforcer.java:30-41 | a null setting gives the empty registry; a present one fails iff one of its comma-separated entries has fewer than two colon-separated tokens, naming the first; otherwise its keys are the named collections and each list is exactly the second tokens in configuration order |
| FilterConfig.ParsedRegistryNullFree | plugin/trino-mongodb/src/main/java/io/trino/plugin/mongodb/FilterEnforcer.java:30-41 | every registry the constructor builds has only non-empty lists without null elements |
| PredicateTree.Contains | plugin/trino-mongodb/src/main/java/io/trino/plugin/mongodb/FilterEnforcer.java:57-79 | the recursive search succeeds iff the field is a key of some document at some depth of the tree |
| PredicateTree.Search | plugin/trino-mongodb/src/main/java/io/trino/plugin/mongodb/FilterEnforcer.java:57-79 | the search with its early returns finds the field iff it is a key somewhere in the tree |
| PredicateTree.DirectKeyFound | plugin/trino-mongodb/src/main/java/io/trino/plugin/mongodb/FilterEnforcer.java:59-61 | a direct key of a document is found, whatever its value |
| PredicateTree.NestedInValueFound | plugin/trino-mongodb/src/main/java/io/trino/plugin/mongodb/FilterEnforcer.java:64-68 | a field found in any value of a document is found from the document |
| PredicateTree.NestedInElementFound | plugin/trino-mongodb/src/main/java/io/trino/plugin/mongodb/FilterEnforcer.java:71-76 | a field found in any element of a list is found from the list |
| PredicateTree.ScalarNeverContains | plugin/trino-mongodb/src/main/java/io/trino/plugin/mongodb/FilterEnforcer.java:78 | a leaf contains no field |
| PredicateTree.DocPermutationInvariant | plugin/trino-mongodb/src/main/java/io/trino/plugin/mongodb/FilterEnforcer.java:57-79 | reordering a document's entries does not change the search result |
| PredicateTree.SeqPermutationInvariant | plugin/trino-mongodb/src/main/java/io/trino/plugin/mongodb/FilterEnforcer.java:71-76 | reordering a list's elements does not change the search result |
| FilterEnforcer.FirstUnmet | plugin/trino-mongodb/src/main/java/io/trino/plugin/mongodb/FilterEnforcer.java:50-54 | the walk yields nothing iff every non-null field is contained, and otherwise yields the first non-null field, in list order, that the filter does not contain |
| FilterEnforcer.Check | plugin/trino-mongodb/src/main/java/io/trino/plugin/mongodb/FilterEnforcer.java:43-55 | an unregistered collection is accepted; otherwise the check rejects iff some non-null required field is not contained, and the rejection carries the collection and the first such field |
| FilterEnforcer.CheckLoop | plugin/trino-mongodb/src/main/java/io/trino/plugin/mongodb/FilterEnforcer.java:43-55 | the lookup-then-loop with null skip and early rejection returns the same verdict as `Check` |
| FilterEnforcer.NoConfigAcceptsAll | plugin/trino-mongodb/src/main/java/io/trino/plugin/mongodb/FilterEnforcer.java:46-49 | with a null setting every collection accepts every filter |
| FilterEnforcer.NullEntriesSkipped | plugin/trino-mongodb/src/main/java/io/trino/plugin/mongodb/FilterEnforcer.java:51 | removing the null entries from a required-field list never changes the field reported, if any |
| FilterEnforcer.AllNullAccepts | plugin/trino-mongodb/src/main/java/io/trino/plugin/mongodb/FilterEnforcer.java:51 | a list of only null entries accepts every filter |
| FilterEnforcer.RejectionOrderIndependent | plugin/trino-mongodb/src/main/java/io/trino/plugin/mongodb/FilterEnforcer.java:50-54 | whether the check rejects does not depend on the order of the required fields, only which field is reported does |
| FilterEnforcer.FieldsForMembers | plugin/trino-mongodb/src/main/java/io/trino/plugin/mongodb/FilterEnforcer.java:36-40 | a field is in a collection's reference list iff some well-formed entry pairs that collection with that field |
| FilterEnforcer.ConfiguredCheck | plugin/trino-mongodb/src/main/java/io/trino/plugin/mongodb/FilterEnforcer.java:36-54 | under a setting of well-formed entries, a query is rejected iff some entry for its collection names a field that occurs nowhere in the filter |
| Scenarios.MissingColonFails | plugin/trino-mongodb/src/main/java/io/trino/plugin/mongodb/FilterEnforcer.java:36-39 | any entry without a colon (or comma), e.g. `"orders-tenantId"`, fails construction on that entry |
| Scenarios.EmptyFieldFails | plugin/trino-mongodb/src/main/java/io/trino/plugin/mongodb/FilterEnforcer.java:36-39 | `"c:"` fails construction for any plain `c`, because the split drops the empty trailing token |
| Scenarios.EmptyConfigFails | plugin/trino-mongodb/src/main/java/io/trino/plugin/mongodb/FilterEnforcer.java:36-39 | the empty setting `""` is one empty entry and fails construction |
| Scenarios.EmptyMiddleEntryFails | plugin/trino-mongodb/src/main/java/io/trino/plugin/mongodb/FilterEnforcer.java:36-39 | `"a:x,,b:y"` fails on its empty middle entry for any plain names with non-empty fields |
| Scenarios.ExtraTokensIgnored | plugin/trino-mongodb/src/main/java/io/trino/plugin/mongodb/FilterEnforcer.java:37-39 | `"c:f:g"` registers only `f` for `c`, for any plain names with `f` or `g` non-empty; `"c::"` splits to `[c]` and fails |
| Scenarios.TrailingCommaAccepted | plugin/trino-mongodb/src/main/java/io/trino/plugin/mongodb/FilterEnforcer.java:36-39 | `"c:f,"` is accepted as if the comma were absent, for any plain names with a non-empty field `f`; `"c:,"` fails because its one entry `"c:"` splits to `[c]` |
| Scenarios.TrailingCommaEmptyFieldFails | plugin/trino-mongodb/src/main/java/io/trino/plugin/mongodb/FilterEnforcer.java:36-39 | `"c:,"` fails construction on its one entry `"c:"` for any plain `c`: the trailing comma is dropped, and `"c:"` splits to `[c]` |
| Scenarios.OnlyCommasGiveEmptyRegistry | plugin/trino-mongodb/src/main/java/io/trino/plugin/mongodb/FilterEnforcer.java:36 | `",,"` has no entries and gives the empty registry |
| Scenarios.EmptyCollectionNameAccepted | plugin/trino-mongodb/src/main/java/io/trino/plugin/mongodb/FilterEnforcer.java:37-39 | `":f"` registers `f` for the collection named `""`, for any plain non-empty `f` |
| Scenarios.TwoEntriesOneCollection | plugin/trino-mongodb/src/main/java/io/trino/plugin/mongodb/FilterEnforcer.java:36-40 | `"c:f,c:g"` gives `c` the list `[f, g]` in configuration order, for any plain names with non-empty fields `f` and `g` |
| Scenarios.OrdersPolicyRegistry | plugin/trino-mongodb/src/main/java/io/trino/plugin/mongodb/FilterEnforcer.java:36-40 | `"orders:tenantId,orders:region"` gives `orders` the list `[tenantId, region]` and nothing else |
| Scenarios.TopLevelMissingRegion | plugin/trino-mongodb/src/main/java/io/trino/plugin/mongodb/FilterEnforcer.java:36-54 | under `"orders:tenantId,orders:region"`, filter `{tenantId}` on `orders` is rejected, naming `region` |
| Scenarios.TopLevelBothAccepted | plugin/trino-mongodb/src/main/java/io/trino/plugin/mongodb/FilterEnforcer.java:36-54 | under `"orders:tenantId,orders:region"`, filter `{tenantId, region}` on `orders` is accepted |
| Scenarios.NestedBothAccepted | plugin/trino-mongodb/src/main/java/io/trino/plugin/mongodb/FilterEnforcer.java:36-79 | under `"orders:tenantId,orders:region"`, filter `{and: [{tenantId}, {region}]}` on `orders` is accepted |
| Scenarios.UnconfiguredCollectionAccepted | plugin/trino-mongodb/src/main/java/io/trino/plugin/mongodb/FilterEnforcer.java:36-49 | under `"orders:tenantId,orders:region"`, the collection `logs`, which has no policy, accepts the empty filter |

## Left out

- The rejection is the value `Rejected(collection, field)`. The `TrinoException`, its `QUERY_REJECTED` code and its formatted message are not modelled.
- A malformed entry is reported as `MalformedEntry(entry)`. Java throws `ArrayIndexOutOfBoundsException` from `tokens[1]`, or from `tokens[0]` when the entry splits into nothing (`":"`), and the exception does not name the entry. Both paths are the one failure of the model.
- The model does not include the empty list that `computeIfAbsent` creates for a malformed entry just before `tokens[1]` throws. Construction fails, so that list is never seen.
- Java runtime typing is reduced to three shapes: document, iterable, anything else. Non-document maps, strings, numbers and null are all `Scalar`. BSON documents are entry sequences. Key uniqueness is not enforced, and the search's result does not depend on it.
- The filter parameter is any `Value`. Java types it as `Document`, so in Java it is only ever a document or null. A null filter is `Scalar`, which contains nothing.
- A null collection name is not modelled. `HashMap.get(null)` finds nothing, because parsed keys are never null, so such a check accepts.
- `HashMap` and `ArrayList` are modelled as a Dafny `map` and `seq`.
- The check has no side effects because every value in the model is immutable. No member states this separately.
- Cyclic filter objects are left out: the finite datatype excludes them. In Java the search overflows the stack only when it re-enters a cycle before it finds the field; if it finds the field first, it still returns true. The model's search is total on every finite tree, so a stack overflow on a very deep acyclic filter is not modelled.
- The general regular-expression path of `String.split` is left out. It is never taken for `","` and `":"`.
- plugin/trino-hudi/src/test/java/io/trino/plugin/hudi/S3HudiQueryRunner.java is integration-test scaffolding (containers, metastore, query runner) and is not part of this model.

=== FILE: filter_config.dfy ===
/**
 * The enforcer's constructor: the required-filters configuration string,
 * `collection:field` entries separated by commas, becomes a registry from
 * collection name to the ordered list of fields it requires.
 */
module FilterConfig {
  import opened Wrappers
  import opened JavaSplit
  import opened Sequences

  /**
   * Collection name to required fields, in configuration order. A list element
   * is a Java `String` and so may in principle be null (`None`).
   */
  type Registry = map<string, seq<Option<string>>>

  /** Construction failed on this entry: it split into fewer than two tokens. */
  datatype ConfigError = MalformedEntry(entry: string)

  /** The comma-separated entries of a configuration string. */
  function Entries(config: string): (entries: seq<string>)
    ensures SeparatorFree(entries, ',')
  {
    Split(config, ',')
  }

  /** The colon-separated tokens of one entry. */
  function Tokens(entry: string): (tokens: seq<string>)
    ensures SeparatorFree(tokens, ':')
  {
    Split(entry, ':')
  }

  /**
   * The entries are the pieces between commas, less the empty ones at the end;
   * a setting without a comma is one entry.
   */
  lemma EntriesSplit(config: string)
    ensures ',' !in config ==> Entries(config) == [config]
    ensures ',' in config ==> Entries(config) <= RawSplit(config, ',')
    ensures ',' in config ==> AllEmpty(RawSplit(config, ',')[|Entries(config)|..])
    ensures ',' in config && |Entries(config)| > 0 ==> Entries(config)[|Entries(config)| - 1] != ""
  {
  }

  /**
   * The tokens are the pieces between colons, less the empty ones at the end;
   * an entry without a colon is one token.
   */
  lemma TokensSplit(entry: string)
    ensures ':' !in entry ==> Tokens(entry) == [entry]
    ensures ':' in entry ==> Tokens(entry) <= RawSplit(entry, ':')
    ensures ':' in entry ==> AllEmpty(RawSplit(entry, ':')[|Tokens(entry)|..])
    ensures ':' in entry && |Tokens(entry)| > 0 ==> Tokens(entry)[|Tokens(entry)| - 1] != ""
  {
  }

  /** An entry construction accepts: it has a first and a second token. */
  predicate WellFormed(entry: string)
  {
    |Tokens(entry)| >= 2
  }

  predicate AllWellFormed(entries: seq<string>)
  {
    forall i :: 0 <= i < |entries| ==> WellFormed(entries[i])
  }

  /**
   * The position of the first entry with fewer than two tokens, or the number
   * of entries when there is none.
   */
  function FirstMalformed(entries: seq<string>): (i: nat)
    ensures i <= |entries|
    ensures i < |entries| ==> !WellFormed(entries[i])
    ensures forall j :: 0 <= j < i ==> WellFormed(entries[j])
    ensures i == |entries| <==> AllWellFormed(entries)
    decreases |entries|
  {
    if |entries| == 0 || !WellFormed(entries[0]) then 0
    else 1 + FirstMalformed(entries[1..])
  }

  /** Appends `field` to the list of `collection`, creating the list if it is absent. */
  function Register(reg: Registry, collection: string, field: string): (r: Registry)
    ensures r.Keys == reg.Keys + {collection}
    ensures r[collection] == (if collection in reg then reg[collection] else []) + [Some(field)]
    ensures forall c :: c in reg && c != collection ==> r[c] == reg[c]
  {
    var list := if collection in reg then reg[collection] else [];
    reg[collection := list + [Some(field)]]
  }

  /**
   * Processes the entries in order. Construction fails exactly when some entry
   * has fewer than two tokens, and the failure names the first such entry.
   * Otherwise the registry gains exactly the collections the entries name, and
   * each list grows by the second tokens of its entries, in order, duplicates kept.
   */
  function AddEntries(reg: Registry, entries: seq<string>): (r: Result<Registry, ConfigError>)
    ensures r.Failure? <==> !AllWellFormed(entries)
    ensures r.Failure? ==> r.error == MalformedEntry(entries[FirstMalformed(entries)])
    ensures r.Success? ==> r.value.Keys == reg.Keys + CollectionsOf(entries)
    ensures r.Success? ==> forall c :: c in r.value ==>
      r.value[c] == (if c in reg then reg[c] else []) + FieldsFor(entries, c)
    decreases |entries|
  {
    if |entries| == 0 then Success(reg)
    else
      var tokens := Tokens(entries[0]);
      if |tokens| < 2 then
        Failure(MalformedEntry(entries[0]))
      else
        var rest := AddEntries(Register(reg, tokens[0], tokens[1]), entries[1..]);
        AllWellFormedCons(entries);
        if rest.Success? then
          ContentsCons(reg, entries, rest.value);
          rest
        else
          rest
  }

  /**
   * Construction: no configuration gives an empty registry; a present one is
   * processed entry by entry from an empty registry.
   */
  function Parse(config: Option<string>): (r: Result<Registry, ConfigError>)
    ensures config.None? ==> r == Success(map[])
    ensures r.Failure? <==> config.Some? && !AllWellFormed(Entries(config.value))
    ensures r.Failure? ==>
      config.Some? && r.error == MalformedEntry(Entries(config.value)[FirstMalformed(Entries(config.value))])
    ensures r.Success? && config.Some? ==> r.value.Keys == CollectionsOf(Entries(config.value))
    ensures r.Success? && config.Some? ==> forall c :: c in r.value ==>
      r.value[c] == FieldsFor(Entries(config.value), c)
  {
    match config
    case None => Success(map[])
    case Some(s) => AddEntries(map[], Entries(s))
  }

  /** Reference meaning of a registry entry: the second tokens of the entries naming `c`, in order. */
  function FieldsFor(entries: seq<string>, c: string): (fields: seq<Option<string>>)
    ensures |fields| <= |entries|
  {
    if |entries| == 0 then [] else EntryFields(entries[0], c) + FieldsFor(entries[1..], c)
  }

  /** The field one entry contributes to collection `c`: its second token if its first is `c`. */
  function EntryFields(entry: string, c: string): (fields: seq<Option<string>>)
    ensures |fields| <= 1
  {
    var tokens := Tokens(entry);
    if |tokens| >= 2 && tokens[0] == c then [Some(tokens[1])] else []
  }

  /** The collections the entries name. */
  function CollectionsOf(entries: seq<string>): set<string>
  {
    set i | 0 <= i < |entries| && WellFormed(entries[i]) :: Tokens(entries[i])[0]
  }

  lemma CollectionsOfCons(entries: seq<string>)
    requires |entries| > 0 && WellFormed(entries[0])
    ensures CollectionsOf(entries) == {Tokens(entries[0])[0]} + CollectionsOf(entries[1..])
  {
    var rest := entries[1..];
    forall c | c in CollectionsOf(entries) ensures c in {Tokens(entries[0])[0]} + CollectionsOf(rest) {
      var i :| 0 <= i < |entries| && WellFormed(entries[i]) && Tokens(entries[i])[0] == c;
      if i > 0 {
        assert rest[i - 1] == entries[i];
      }
    }
    forall c | c in CollectionsOf(rest) ensures c in CollectionsOf(entries) {
      var i :| 0 <= i < |rest| && WellFormed(rest[i]) && Tokens(rest[i])[0] == c;
      assert entries[i + 1] == rest[i];
    }
  }

  /** Entries are all well formed exactly when the first one and the rest are. */
  lemma AllWellFormedCons(entries: seq<string>)
    requires |entries| > 0
    ensures AllWellFormed(entries) <==> WellFormed(entries[0]) && AllWellFormed(entries[1..])
  {
    var rest := entries[1..];
    if WellFormed(entries[0]) && AllWellFormed(rest) {
      forall i | 0 <= i < |entries| ensures WellFormed(entries[i]) {
        if i > 0 {
          assert entries[i] == rest[i - 1];
        }
      }
    }
    if AllWellFormed(entries) {
      forall i | 0 <= i < |rest| ensures WellFormed(rest[i]) {
        assert rest[i] == entries[i + 1];
      }
    }
  }

  /**
   * If the rest of the entries, processed after the first, produced the
   * reference registry for the rest, the result is the reference registry for
   * all of them.
   */
  lemma ContentsCons(reg: Registry, entries: seq<string>, r: Registry)
    requires |entries| > 0 && WellFormed(entries[0])
    requires var reg' := Register(reg, Tokens(entries[0])[0], Tokens(entries[0])[1]);
      r.Keys == reg'.Keys + CollectionsOf(entries[1..])
      && forall c :: c in r ==> r[c] == (if c in reg' then reg'[c] else []) + FieldsFor(entries[1..], c)
    ensures r.Keys == reg.Keys + CollectionsOf(entries)
    ensures forall c :: c in r ==> r[c] == (if c in reg then reg[c] else []) + FieldsFor(entries, c)
  {
    var reg' := Register(reg, Tokens(entries[0])[0], Tokens(entries[0])[1]);
    KeysCons(reg, entries, r.Keys);
    forall c | c in r
      ensures r[c] == (if c in reg then reg[c] else []) + FieldsFor(entries, c)
    {
      RegisterStep(reg, entries, c);
    }
  }

  /** The key half of `ContentsCons`. */
  lemma KeysCons(reg: Registry, entries: seq<string>, keys: set<string>)
    requires |entries| > 0 && WellFormed(entries[0])
    requires keys == Register(reg, Tokens(entries[0])[0], Tokens(entries[0])[1]).Keys + CollectionsOf(entries[1..])
    ensures keys == reg.Keys + CollectionsOf(entries)
  {
    CollectionsOfCons(entries);
  }

  /** Registering the first entry and then the rest adds up to the reference list. */
  lemma RegisterStep(reg: Registry, entries: seq<string>, c: string)
    requires |entries| > 0 && WellFormed(entries[0])
    ensures var reg' := Register(reg, Tokens(entries[0])[0], Tokens(entries[0])[1]);
      (if c in reg' then reg'[c] else []) + FieldsFor(entries[1..], c)
      == (if c in reg then reg[c] else []) + FieldsFor(entries, c)
  {
    var tokens := Tokens(entries[0]);
    RegisterList(reg, tokens[0], tokens[1], c);
    var before := if c in reg then reg[c] else [];
    var head := EntryFields(entries[0], c);
    var rest := FieldsFor(entries[1..], c);
    AppendAssoc(before, head, rest);
  }

  /** The list `Register` leaves for any collection `c`. */
  lemma RegisterList(reg: Registry, collection: string, field: string, c: string)
    ensures var r := Register(reg, collection, field);
      (if c in r then r[c] else [])
      == (if c in reg then reg[c] else []) + (if collection == c then [Some(field)] else [])
  {
    if collection != c {
      var before := if c in reg then reg[c] else [];
      assert before + [] == before;
    }
  }

  /** Every list the constructor builds is non-empty and free of nulls. */
  predicate NullFree(reg: Registry)
  {
    forall c :: c in reg ==> |reg[c]| > 0 && forall i :: 0 <= i < |reg[c]| ==> reg[c][i].Some?
  }

  lemma {:induction false} AddEntriesNullFree(reg: Registry, entries: seq<string>)
    requires NullFree(reg)
    ensures AddEntries(reg, entries).Success? ==> NullFree(AddEntries(reg, entries).value)
    decreases |entries|
  {
    if |entries| > 0 {
      var tokens := Tokens(entries[0]);
      if |tokens| >= 2 {
        var reg' := Register(reg, tokens[0], tokens[1]);
        assert NullFree(reg');
        AddEntriesNullFree(reg', entries[1..]);
      }
    }
  }

  /** A registry built by construction holds no null field and no empty list. */
  lemma ParsedRegistryNullFree(config: Option<string>)
    ensures Parse(config).Success? ==> NullFree(Parse(config).value)
  {
    if config.Some? {
      AddEntriesNullFree(map[], Entries(config.value));
    }
  }
}

=== FILE: filter_enforcer.dfy ===
/**
 * The check the connector runs before fetching from a collection: every
 * required field configured for the collection must occur as a key somewhere
 * in the query's filter; the first one that does not rejects the query.
 */
module FilterEnforcer {
  import opened Wrappers
  import opened PredicateTree
  import opened FilterConfig
  import opened Sequences

  /** The outcome of a check: the query may proceed, or is rejected naming the collection and the missing field. */
  datatype Verdict = Accepted | Rejected(collection: string, field: string)

  /** A required-field entry the filter fails: non-null and not found anywhere in the filter. */
  predicate Unmet(required: Option<string>, filter: Value)
  {
    required.Some? && !Contains(filter, required.value)
  }

  /** The walk over the required-field list, stopping at the first unmet field. */
  function FirstUnmet(fields: seq<Option<string>>, filter: Value): (r: Option<string>)
    ensures r.None? <==> forall i :: 0 <= i < |fields| ==> !Unmet(fields[i], filter)
    ensures r.Some? ==> exists i :: (0 <= i < |fields| && fields[i] == r && Unmet(fields[i], filter)
      && forall j :: 0 <= j < i ==> !Unmet(fields[j], filter))
  {
    if |fields| == 0 then None
    else if Unmet(fields[0], filter) then fields[0]
    else
      var r := FirstUnmet(fields[1..], filter);
      assert forall i :: 1 <= i < |fields| ==> fields[i] == fields[1..][i - 1];
      r
  }

  /** `checkAndRaiseIfInvalid`: collections without an entry always pass. */
  function Check(reg: Registry, collection: string, filter: Value): (v: Verdict)
    ensures collection !in reg ==> v == Accepted
    ensures v.Accepted? <==>
      collection !in reg || forall i :: 0 <= i < |reg[collection]| ==> !Unmet(reg[collection][i], filter)
    ensures v.Rejected? ==> (v.collection == collection && collection in reg
      && exists i :: (0 <= i < |reg[collection]| && reg[collection][i] == Some(v.field)
        && !Contains(filter, v.field)
        && forall j :: 0 <= j < i ==> !Unmet(reg[collection][j], filter)))
  {
    if collection !in reg then Accepted
    else
      match FirstUnmet(reg[collection], filter)
      case None => Accepted
      case Some(f) => Rejected(collection, f)
  }

  /**
   * The check as the connector runs it: a lookup, then a loop over the list
   * that skips nulls, runs the search, and stops at the first miss.
   */
  method CheckLoop(reg: Registry, collection: string, filter: Value) returns (v: Verdict)
    ensures v == Check(reg, collection, filter)
  {
    if collection !in reg {
      return Accepted;
    }
    var fields := reg[collection];
    var i := 0;
    while i < |fields|
      invariant 0 <= i <= |fields|
      invariant forall j :: 0 <= j < i ==> !Unmet(fields[j], filter)
    {
      if fields[i].Some? {
        var found := Search(filter, fields[i].value);
        if !found {
          return Rejected(collection, fields[i].value);
        }
      }
      i := i + 1;
    }
    return Accepted;
  }

  /** With no configuration every collection accepts every filter. */
  lemma NoConfigAcceptsAll(collection: string, filter: Value)
    ensures Parse(None).Success?
    ensures Check(Parse(None).value, collection, filter) == Accepted
  {
  }

  /** The list without its null entries. */
  function DropNulls(fields: seq<Option<string>>): (r: seq<Option<string>>)
    ensures |r| <= |fields|
    ensures forall i :: 0 <= i < |r| ==> r[i].Some?
  {
    if |fields| == 0 then []
    else (if fields[0].Some? then [fields[0]] else []) + DropNulls(fields[1..])
  }

  /** Null entries are skipped: removing them never changes which field, if any, is reported. */
  lemma {:induction false} NullEntriesSkipped(fields: seq<Option<string>>, filter: Value)
    ensures FirstUnmet(fields, filter) == FirstUnmet(DropNulls(fields), filter)
    decreases |fields|
  {
    if |fields| > 0 {
      NullEntriesSkipped(fields[1..], filter);
      if fields[0].Some? {
        var d := DropNulls(fields);
        assert d == [fields[0]] + DropNulls(fields[1..]);
        assert d[1..] == DropNulls(fields[1..]);
      } else {
        assert DropNulls(fields) == [] + DropNulls(fields[1..]);
        assert [] + DropNulls(fields[1..]) == DropNulls(fields[1..]);
      }
    }
  }

  /** A list of nothing but nulls accepts every filter. */
  lemma AllNullAccepts(reg: Registry, collection: string, filter: Value)
    requires collection in reg
    requires forall i :: 0 <= i < |reg[collection]| ==> reg[collection][i].None?
    ensures Check(reg, collection, filter) == Accepted
  {
  }

  /** Whether the check rejects does not depend on the order of the required fields. */
  lemma RejectionOrderIndependent(fields: seq<Option<string>>, fields': seq<Option<string>>, filter: Value)
    requires multiset(fields) == multiset(fields')
    ensures FirstUnmet(fields, filter).Some? <==> FirstUnmet(fields', filter).Some?
  {
    SameMultisetCovers(fields, fields');
    SameMultisetCovers(fields', fields);
    if FirstUnmet(fields, filter).Some? {
      var i :| 0 <= i < |fields| && Unmet(fields[i], filter);
      assert fields[i] in fields';
      var j :| 0 <= j < |fields'| && fields'[j] == fields[i];
      assert Unmet(fields'[j], filter);
    }
    if FirstUnmet(fields', filter).Some? {
      var j :| 0 <= j < |fields'| && Unmet(fields'[j], filter);
      assert fields'[j] in fields;
      var i :| 0 <= i < |fields| && fields[i] == fields'[j];
      assert Unmet(fields[i], filter);
    }
  }

  /** The reference list of a collection holds a field exactly when some entry names the pair. */
  lemma {:induction false} FieldsForMembers(entries: seq<string>, c: string, f: string)
    ensures Some(f) in FieldsFor(entries, c) <==>
      exists i :: 0 <= i < |entries| && WellFormed(entries[i]) && Tokens(entries[i])[0] == c && Tokens(entries[i])[1] == f
    decreases |entries|
  {
    if |entries| > 0 {
      var rest := entries[1..];
      FieldsForMembers(rest, c, f);
      var tokens := Tokens(entries[0]);
      var head: seq<Option<string>> := if |tokens| >= 2 && tokens[0] == c then [Some(tokens[1])] else [];
      assert FieldsFor(entries, c) == head + FieldsFor(rest, c);
      if exists i :: 0 <= i < |rest| && WellFormed(rest[i]) && Tokens(rest[i])[0] == c && Tokens(rest[i])[1] == f {
        var i :| 0 <= i < |rest| && WellFormed(rest[i]) && Tokens(rest[i])[0] == c && Tokens(rest[i])[1] == f;
        assert entries[i + 1] == rest[i];
      }
      if exists i :: 0 <= i < |entries| && WellFormed(entries[i]) && Tokens(entries[i])[0] == c && Tokens(entries[i])[1] == f {
        var i :| 0 <= i < |entries| && WellFormed(entries[i]) && Tokens(entries[i])[0] == c && Tokens(entries[i])[1] == f;
        if i > 0 {
          assert rest[i - 1] == entries[i];
        }
      }
    }
  }

  /**
   * End to end: under a configuration of well-formed entries, a query on
   * `collection` is rejected exactly when some entry `collection:f` names a
   * field `f` that occurs nowhere in the filter.
   */
  lemma ConfiguredCheck(config: string, collection: string, filter: Value)
    requires AllWellFormed(Entries(config))
    ensures Parse(Some(config)).Success?
    ensures Check(Parse(Some(config)).value, collection, filter).Rejected? <==>
      exists i :: 0 <= i < |Entries(config)| && Tokens(Entries(config)[i])[0] == collection
        && !Contains(filter, Tokens(Entries(config)[i])[1])
  {
    var entries := Entries(config);
    DescribedRegistryCheck(Parse(Some(config)).value, entries, collection, filter);
  }

  /** The check against a registry that is exactly what well-formed entries describe. */
  lemma DescribedRegistryCheck(reg: Registry, entries: seq<string>, collection: string, filter: Value)
    requires AllWellFormed(entries)
    requires reg.Keys == CollectionsOf(entries)
    requires forall c :: c in reg ==> reg[c] == FieldsFor(entries, c)
    ensures Check(reg, collection, filter).Rejected? <==>
      exists i :: 0 <= i < |entries| && Tokens(entries[i])[0] == collection
        && !Contains(filter, Tokens(entries[i])[1])
  {
    if Check(reg, collection, filter).Rejected? {
      RejectionHasEntry(reg, entries, collection, filter);
    }
    if exists i :: 0 <= i < |entries| && Tokens(entries[i])[0] == collection && !Contains(filter, Tokens(entries[i])[1]) {
      var i :| 0 <= i < |entries| && Tokens(entries[i])[0] == collection && !Contains(filter, Tokens(entries[i])[1]);
      EntryForcesRejection(reg, entries, collection, filter, i);
    }
  }

  /** A rejection names a field some entry for the collection requires. */
  lemma RejectionHasEntry(reg: Registry, entries: seq<string>, collection: string, filter: Value)
    requires AllWellFormed(entries)
    requires forall c :: c in reg ==> reg[c] == FieldsFor(entries, c)
    requires Check(reg, collection, filter).Rejected?
    ensures exists i ::
      0 <= i < |entries| && Tokens(entries[i])[0] == collection && !Contains(filter, Tokens(entries[i])[1])
  {
    var v := Check(reg, collection, filter);
    var i :| 0 <= i < |reg[collection]| && reg[collection][i] == Some(v.field) && !Contains(filter, v.field);
    assert Some(v.field) in FieldsFor(entries, collection);
    FieldsForMembers(entries, collection, v.field);
  }

  /** An entry for the collection whose field the filter lacks forces a rejection. */
  lemma EntryForcesRejection(reg: Registry, entries: seq<string>, collection: string, filter: Value, i: nat)
    requires AllWellFormed(entries)
    requires reg.Keys == CollectionsOf(entries)
    requires forall c :: c in reg ==> reg[c] == FieldsFor(entries, c)
    requires i < |entries| && Tokens(entries[i])[0] == collection && !Contains(filter, Tokens(entries[i])[1])
    ensures Check(reg, collection, filter).Rejected?
  {
    assert WellFormed(entries[i]);
    var f := Tokens(entries[i])[1];
    FieldsForMembers(entries, collection, f);
    assert collection in CollectionsOf(entries);
    var k :| 0 <= k < |reg[collection]| && reg[collection][k] == Some(f);
    assert Unmet(reg[collection][k], filter);
  }
}

=== FILE: java_split.dfy ===
/**
 * Java's `String.split(regex)` for a one-character separator that is not a
 * regular-expression metacharacter (`","` and `":"`), with the default limit 0.
 * This is the JDK's fast path: the string is cut at every occurrence of the
 * separator; if there was no occurrence at all the result is the string itself
 * (so `""` splits to `[""]`); otherwise trailing empty pieces are removed, while
 * leading and interior empty pieces are kept.
 */
module JavaSplit {
  import opened Sequences

  /** Java's `indexOf(c, from)`: the first position at or after `from` holding `c`, or -1. */
  function IndexFrom(s: string, c: char, from: nat): (k: int)
    requires from <= |s|
    ensures k == -1 ==> c !in s[from..]
    ensures k != -1 ==> from <= k < |s| && s[k] == c && c !in s[from..k]
    decreases |s| - from
  {
    if from == |s| then -1
    else if s[from] == c then from
    else
      assert s[from..] == [s[from]] + s[from + 1..];
      IndexFrom(s, c, from + 1)
  }

  /** The pieces of `s[from..]` between consecutive separators, empty pieces included. */
  function RawSplitFrom(s: string, c: char, from: nat): (pieces: seq<string>)
    requires from <= |s|
    ensures |pieces| >= 1
    decreases |s| - from
  {
    var k := IndexFrom(s, c, from);
    if k == -1 then [s[from..]] else [s[from..k]] + RawSplitFrom(s, c, k + 1)
  }

  /** Every piece between consecutive separators, empty pieces included. */
  function RawSplit(s: string, c: char): (pieces: seq<string>)
    ensures |pieces| >= 1
  {
    RawSplitFrom(s, c, 0)
  }

  /** Puts the separator back between the pieces. */
  function Join(pieces: seq<string>, c: char): (s: string)
    requires |pieces| >= 1
    ensures |s| >= |pieces| - 1
  {
    if |pieces| == 1 then pieces[0] else pieces[0] + [c] + Join(pieces[1..], c)
  }

  /** Removes the empty strings at the end of a piece list. */
  function DropTrailingEmpty(pieces: seq<string>): (r: seq<string>)
    ensures |r| <= |pieces|
  {
    if |pieces| > 0 && pieces[|pieces| - 1] == "" then DropTrailingEmpty(pieces[..|pieces| - 1])
    else pieces
  }

  /**
   * `s.split(c)` in Java: without a separator the string itself; otherwise the
   * raw pieces up to the last non-empty one. No piece holds the separator.
   */
  function Split(s: string, c: char): (r: seq<string>)
    ensures c !in s ==> r == [s]
    ensures c in s ==> r <= RawSplit(s, c)
    ensures c in s ==> AllEmpty(RawSplit(s, c)[|r|..])
    ensures c in s && |r| > 0 ==> r[|r| - 1] != ""
    ensures SeparatorFree(r, c)
  {
    JoinRawSplit(s, c);
    if c !in s then
      SeparatorFreeOne(s, c);
      [s]
    else
      DropTrailingEmptyShape(RawSplit(s, c));
      DroppedEmpty(RawSplit(s, c), |DropTrailingEmpty(RawSplit(s, c))|);
      PrefixFree(DropTrailingEmpty(RawSplit(s, c)), RawSplit(s, c), c);
      DropTrailingEmpty(RawSplit(s, c))
  }

  /** The pieces from position `n` on are all empty if every piece there is. */
  lemma DroppedEmpty(pieces: seq<string>, n: nat)
    requires n <= |pieces|
    requires forall i :: n <= i < |pieces| ==> pieces[i] == ""
    ensures AllEmpty(pieces[n..])
  {
  }

  /** A prefix of a separator-free list is separator-free. */
  lemma PrefixFree(p: seq<string>, q: seq<string>, c: char)
    requires p <= q && SeparatorFree(q, c)
    ensures SeparatorFree(p, c)
  {
    forall i | 0 <= i < |p| ensures c !in p[i] {
      assert p[i] == q[i];
    }
  }

  /** Every piece is the empty string. */
  predicate AllEmpty(pieces: seq<string>)
  {
    forall i :: 0 <= i < |pieces| ==> pieces[i] == ""
  }

  /** A piece list that could have come out of a split: no piece holds the separator. */
  predicate SeparatorFree(pieces: seq<string>, c: char)
  {
    forall i :: 0 <= i < |pieces| ==> c !in pieces[i]
  }

  /** `IndexFrom` finds exactly the first occurrence at or after `from`, or -1 when there is none. */
  lemma {:induction false} IndexFromFirst(s: string, c: char, from: nat, k: nat)
    requires from <= k <= |s|
    requires k < |s| ==> s[k] == c
    requires forall j :: from <= j < k ==> s[j] != c
    ensures IndexFrom(s, c, from) == if k == |s| then -1 else k
    decreases k - from
  {
    if from < k {
      IndexFromFirst(s, c, from + 1, k);
    }
  }

  lemma JoinCons(p: string, rest: seq<string>, c: char)
    requires |rest| >= 1
    ensures Join([p] + rest, c) == p + [c] + Join(rest, c)
  {
    assert ([p] + rest)[1..] == rest;
  }

  /** Cutting at the separators and gluing back gives the original suffix. */
  lemma {:induction false} JoinRawSplitFrom(s: string, c: char, from: nat)
    requires from <= |s|
    ensures Join(RawSplitFrom(s, c, from), c) == s[from..]
    decreases |s| - from, 1
  {
    var k := IndexFrom(s, c, from);
    if k != -1 {
      JoinRawSplitFromCons(s, c, from, k);
    } else {
      RawSplitFromLast(s, c, from);
    }
  }

  /** The step of `JoinRawSplitFrom` when the next separator is at `k`. */
  lemma {:induction false} JoinRawSplitFromCons(s: string, c: char, from: nat, k: nat)
    requires from <= k < |s|
    requires IndexFrom(s, c, from) == k
    ensures Join(RawSplitFrom(s, c, from), c) == s[from..]
    decreases |s| - from, 0
  {
    var rest := RawSplitFrom(s, c, k + 1);
    JoinRawSplitFrom(s, c, k + 1);
    GlueStep(s, c, from, k, rest);
    assert RawSplitFrom(s, c, from) == [s[from..k]] + rest;
  }

  /** No piece of the raw split holds the separator. */
  lemma {:induction false} RawSplitFromFree(s: string, c: char, from: nat)
    requires from <= |s|
    ensures SeparatorFree(RawSplitFrom(s, c, from), c)
    decreases |s| - from, 1
  {
    var k := IndexFrom(s, c, from);
    if k != -1 {
      RawSplitFromFreeCons(s, c, from, k);
    } else {
      RawSplitFromLast(s, c, from);
      SeparatorFreeOne(s[from..], c);
    }
  }

  /** The step of `RawSplitFromFree` when the next separator is at `k`. */
  lemma {:induction false} RawSplitFromFreeCons(s: string, c: char, from: nat, k: nat)
    requires from <= k < |s|
    requires IndexFrom(s, c, from) == k
    ensures SeparatorFree(RawSplitFrom(s, c, from), c)
    decreases |s| - from, 0
  {
    RawSplitFromFree(s, c, k + 1);
    SeparatorFreeCons(s[from..k], RawSplitFrom(s, c, k + 1), c);
    assert RawSplitFrom(s, c, from) == [s[from..k]] + RawSplitFrom(s, c, k + 1);
  }

  lemma SeparatorFreeOne(p: string, c: char)
    requires c !in p
    ensures SeparatorFree([p], c)
  {
  }

  /** Gluing the piece before a separator to the pieces after it rebuilds the suffix. */
  lemma GlueStep(s: string, c: char, from: nat, k: nat, rest: seq<string>)
    requires from <= k < |s| && s[k] == c
    requires |rest| >= 1 && Join(rest, c) == s[k + 1..]
    ensures Join([s[from..k]] + rest, c) == s[from..]
  {
    JoinCons(s[from..k], rest, c);
    CutAt(s, from, k);
  }

  /** A string cut around position `k`. */
  lemma CutAt(s: string, from: nat, k: nat)
    requires from <= k < |s|
    ensures s[from..] == s[from..k] + [s[k]] + s[k + 1..]
  {
  }

  lemma SeparatorFreeCons(p: string, rest: seq<string>, c: char)
    requires c !in p && SeparatorFree(rest, c)
    ensures SeparatorFree([p] + rest, c)
  {
    forall i | 0 <= i < |[p] + rest| ensures c !in ([p] + rest)[i] {
      if i > 0 {
        assert ([p] + rest)[i] == rest[i - 1];
      }
    }
  }

  /** Cutting at the separators and gluing back gives the original string. */
  lemma JoinRawSplit(s: string, c: char)
    ensures Join(RawSplit(s, c), c) == s
    ensures SeparatorFree(RawSplit(s, c), c)
  {
    JoinRawSplitFrom(s, c, 0);
    RawSplitFromFree(s, c, 0);
    assert s[0..] == s;
  }

  /** One step of the raw split: the piece up to the next separator, then the rest. */
  lemma RawSplitFromStep(s: string, c: char, from: nat)
    requires from <= |s|
    ensures IndexFrom(s, c, from) == -1 ==> RawSplitFrom(s, c, from) == [s[from..]]
    ensures IndexFrom(s, c, from) != -1 ==>
      RawSplitFrom(s, c, from) == [s[from..IndexFrom(s, c, from)]] + RawSplitFrom(s, c, IndexFrom(s, c, from) + 1)
  {
  }

  /** Moving the piece before the next separator from the raw split's rest onto the collected list. */
  lemma CollectStep(s: string, c: char, list: seq<string>, off: nat)
    requires off <= |s|
    requires IndexFrom(s, c, off) != -1
    ensures list + RawSplitFrom(s, c, off) ==
      (list + [s[off..IndexFrom(s, c, off)]]) + RawSplitFrom(s, c, IndexFrom(s, c, off) + 1)
  {
    RawSplitFromStep(s, c, off);
    AppendAssoc(list, [s[off..IndexFrom(s, c, off)]], RawSplitFrom(s, c, IndexFrom(s, c, off) + 1));
  }

  /** With the next separator at `end`, the raw split is the piece before it, then the split after it. */
  lemma RawSplitFromAt(s: string, c: char, from: nat, end: nat, pieces: seq<string>)
    requires from <= end < |s|
    requires IndexFrom(s, c, from) == end
    requires |pieces| >= 2
    requires s[from..end] == pieces[0]
    requires RawSplitFrom(s, c, end + 1) == pieces[1..]
    ensures RawSplitFrom(s, c, from) == pieces
  {
    HeadTail(pieces);
  }

  /** With no separator left, the raw split is the rest of the string as one piece. */
  lemma RawSplitFromLast(s: string, c: char, from: nat)
    requires from <= |s|
    requires IndexFrom(s, c, from) == -1
    ensures RawSplitFrom(s, c, from) == [s[from..]]
  {
  }

  /** The first piece of a joined suffix ends at the first separator, or at the end of the string. */
  lemma JoinedFirstPiece(s: string, c: char, from: nat, pieces: seq<string>)
    requires from <= |s|
    requires |pieces| >= 1
    requires c !in pieces[0]
    requires s[from..] == Join(pieces, c)
    ensures from + |pieces[0]| <= |s|
    ensures s[from..from + |pieces[0]|] == pieces[0]
    ensures IndexFrom(s, c, from) == if |pieces| == 1 then -1 else from + |pieces[0]|
    ensures |pieces| > 1 ==> s[from + |pieces[0]| + 1..] == Join(pieces[1..], c)
  {
    var p := pieces[0];
    var t := s[from..];
    if |pieces| > 1 {
      assert t == p + [c] + Join(pieces[1..], c);
      assert t[|p|] == c;
      assert t[|p| + 1..] == Join(pieces[1..], c);
    }
    assert t[..|p|] == p;
    var end := from + |p|;
    forall j | from <= j < end ensures s[j] != c {
      assert s[j] == t[j - from];
      assert t[j - from] == p[j - from];
    }
    assert end < |s| ==> s[end] == t[|p|];
    IndexFromFirst(s, c, from, end);
  }

  /** Splitting a suffix made of separator-free pieces gives those pieces back. */
  lemma {:induction false} RawSplitFromJoin(s: string, c: char, from: nat, pieces: seq<string>)
    requires from <= |s|
    requires |pieces| >= 1
    requires SeparatorFree(pieces, c)
    requires s[from..] == Join(pieces, c)
    ensures RawSplitFrom(s, c, from) == pieces
    decreases |pieces|, 1
  {
    JoinedFirstPiece(s, c, from, pieces);
    if |pieces| > 1 {
      SeparatorFreeTail(pieces, c);
      RawSplitFromJoinCons(s, c, from, from + |pieces[0]|, pieces);
    } else {
      RawSplitFromLast(s, c, from);
      WholeSuffix(s, from);
    }
  }

  /** The step of `RawSplitFromJoin` for two or more pieces: the first ends at the separator at `end`. */
  lemma {:induction false} RawSplitFromJoinCons(s: string, c: char, from: nat, end: nat, pieces: seq<string>)
    requires from <= end < |s|
    requires |pieces| >= 2
    requires IndexFrom(s, c, from) == end
    requires s[from..end] == pieces[0]
    requires SeparatorFree(pieces[1..], c)
    requires s[end + 1..] == Join(pieces[1..], c)
    ensures RawSplitFrom(s, c, from) == pieces
    decreases |pieces|, 0
  {
    RawSplitFromJoin(s, c, end + 1, pieces[1..]);
    RawSplitFromAt(s, c, from, end, pieces);
  }

  lemma SeparatorFreeTail(pieces: seq<string>, c: char)
    requires |pieces| >= 1 && SeparatorFree(pieces, c)
    ensures SeparatorFree(pieces[1..], c)
  {
    forall i | 0 <= i < |pieces[1..]| ensures c !in pieces[1..][i] {
      assert pieces[1..][i] == pieces[i + 1];
    }
  }

  /** Gluing separator-free pieces and splitting again gives the pieces back. */
  lemma RawSplitJoin(pieces: seq<string>, c: char)
    requires |pieces| >= 1
    requires SeparatorFree(pieces, c)
    ensures RawSplit(Join(pieces, c), c) == pieces
  {
    var s := Join(pieces, c);
    assert s[0..] == s;
    RawSplitFromJoin(s, c, 0, pieces);
  }

  /** What removing trailing empty strings keeps and what it drops. */
  lemma {:induction false} DropTrailingEmptyShape(pieces: seq<string>)
    ensures DropTrailingEmpty(pieces) <= pieces
    ensures |DropTrailingEmpty(pieces)| > 0 ==> DropTrailingEmpty(pieces)[|DropTrailingEmpty(pieces)| - 1] != ""
    ensures forall i :: |DropTrailingEmpty(pieces)| <= i < |pieces| ==> pieces[i] == ""
  {
    if |pieces| > 0 && pieces[|pieces| - 1] == "" {
      var init := pieces[..|pieces| - 1];
      DropTrailingEmptyShape(init);
      forall i | |DropTrailingEmpty(pieces)| <= i < |pieces| ensures pieces[i] == "" {
        if i < |init| {
          assert pieces[i] == init[i];
        }
      }
    }
  }

  /**
   * Splitting separator-free pieces glued together gives them back, less
   * trailing empty ones. A single empty piece is the one exception: `""`
   * splits to `[""]`, not to the empty list.
   */
  lemma SplitJoin(pieces: seq<string>, c: char)
    requires |pieces| >= 1
    requires |pieces| >= 2 || pieces[0] != ""
    requires SeparatorFree(pieces, c)
    ensures Split(Join(pieces, c), c) == DropTrailingEmpty(pieces)
  {
    if |pieces| == 1 {
      assert c !in pieces[0];
    } else {
      RawSplitJoin(pieces, c);
      var s := Join(pieces, c);
      assert s == pieces[0] + [c] + Join(pieces[1..], c);
      assert s[|pieces[0]|] == c;
    }
  }

  /** Whether the string holds the separator is what the first `indexOf` reports. */
  lemma SplitByIndex(s: string, c: char)
    ensures Split(s, c) == if IndexFrom(s, c, 0) == -1 then [s] else DropTrailingEmpty(RawSplit(s, c))
  {
    var k := IndexFrom(s, c, 0);
    assert s[0..] == s;
    if k != -1 {
      assert s[k] in s;
    }
  }

  /**
   * The JDK's fast-path loop: repeated `indexOf`, collecting the substring
   * before each separator, then the no-match shortcut, the last segment and
   * the removal of trailing empty strings.
   */
  method SplitLoop(s: string, c: char) returns (r: seq<string>)
    ensures r == Split(s, c)
  {
    SplitByIndex(s, c);
    var list, off := CollectPieces(s, c);
    if off == 0 {
      return [s];
    }
    list := list + [s[off..]];
    r := DropTrailingLoop(list);
  }

  /**
   * The `indexOf` loop: collects the piece before each separator and stops
   * with `off` just past the last one (0 when there was none).
   */
  method CollectPieces(s: string, c: char) returns (list: seq<string>, off: nat)
    ensures off <= |s|
    ensures off == 0 <==> IndexFrom(s, c, 0) == -1
    ensures off > 0 ==> list + [s[off..]] == RawSplit(s, c)
  {
    off := 0;
    list := [];
    var next := IndexFrom(s, c, off);
    while next != -1
      invariant 0 <= off <= |s|
      invariant next == IndexFrom(s, c, off)
      invariant list + RawSplitFrom(s, c, off) == RawSplit(s, c)
      invariant off == 0 <==> |list| == 0
      invariant off > 0 ==> IndexFrom(s, c, 0) != -1
      decreases |s| - off
    {
      CollectStep(s, c, list, off);
      list := list + [s[off..next]];
      off := next + 1;
      next := IndexFrom(s, c, off);
    }
    RawSplitFromStep(s, c, off);
  }

  /** The loop that shrinks the result size past trailing empty strings. */
  method DropTrailingLoop(list: seq<string>) returns (r: seq<string>)
    ensures r == DropTrailingEmpty(list)
  {
    var size := |list|;
    assert list[..size] == list;
    while size > 0 && list[size - 1] == ""
      invariant 0 <= size <= |list|
      invariant DropTrailingEmpty(list[..size]) == DropTrailingEmpty(list)
    {
      assert list[..size][..size - 1] == list[..size - 1];
      size := size - 1;
    }
    r := list[..size];
  }
}

=== FILE: predicate_tree.dfy ===
/**
 * The filter handed to the enforcer, as a tree with exactly the three shapes
 * the containment search distinguishes: a BSON document (ordered key/value
 * entries), anything iterable (an ordered list of elements), and everything
 * else, an opaque leaf. Strings, numbers, null and plain (non-document) maps
 * are all leaves.
 */
module PredicateTree {
  import opened Sequences

  datatype Value =
    | Doc(entries: seq<(string, Value)>)
    | Seq(elements: seq<Value>)
    | Scalar

  /** `f` is a direct key of the document's entries. */
  predicate HasKey(entries: seq<(string, Value)>, f: string)
  {
    exists i :: 0 <= i < |entries| && entries[i].0 == f
  }

  /**
   * The containment search: a document contains `f` when `f` is one of its
   * keys or one of its values contains it; a list contains `f` when one of its
   * elements does; a leaf never does.
   */
  predicate Contains(v: Value, f: string)
    ensures Contains(v, f) <==> f in AllKeys(v)
    decreases v
  {
    match v
    case Doc(entries) =>
      HasKey(entries, f) || exists i :: 0 <= i < |entries| && Contains(entries[i].1, f)
    case Seq(elements) =>
      exists i :: 0 <= i < |elements| && Contains(elements[i], f)
    case Scalar => false
  }

  /** Every key of every document anywhere in the tree: the reference meaning of "contains". */
  function AllKeys(v: Value): set<string>
    decreases v
  {
    match v
    case Doc(entries) =>
      (set i | 0 <= i < |entries| :: entries[i].0)
      + (set i, k | 0 <= i < |entries| && k in AllKeys(entries[i].1) :: k)
    case Seq(elements) =>
      set i, k | 0 <= i < |elements| && k in AllKeys(elements[i]) :: k
    case Scalar => {}
  }

  /** A direct key is found whatever value it maps to. */
  lemma DirectKeyFound(entries: seq<(string, Value)>, i: nat, f: string)
    requires i < |entries| && entries[i].0 == f
    ensures Contains(Doc(entries), f)
  {
  }

  /** A key nested inside a document value is found from the enclosing document. */
  lemma NestedInValueFound(entries: seq<(string, Value)>, i: nat, f: string)
    requires i < |entries| && Contains(entries[i].1, f)
    ensures Contains(Doc(entries), f)
  {
  }

  /** A key nested inside a list element is found from the enclosing list. */
  lemma NestedInElementFound(elements: seq<Value>, i: nat, f: string)
    requires i < |elements| && Contains(elements[i], f)
    ensures Contains(Seq(elements), f)
  {
  }

  /** Leaves hold no keys. */
  lemma ScalarNeverContains(f: string)
    ensures !Contains(Scalar, f)
  {
  }

  lemma DocCoverContains(entries: seq<(string, Value)>, entries': seq<(string, Value)>, f: string)
    requires Covers(entries, entries')
    requires Contains(Doc(entries), f)
    ensures Contains(Doc(entries'), f)
  {
    if HasKey(entries, f) {
      var i :| 0 <= i < |entries| && entries[i].0 == f;
      assert entries[i] in entries';
      var j :| 0 <= j < |entries'| && entries'[j] == entries[i];
    } else {
      var i :| 0 <= i < |entries| && Contains(entries[i].1, f);
      assert entries[i] in entries';
      var j :| 0 <= j < |entries'| && entries'[j] == entries[i];
      assert Contains(entries'[j].1, f);
    }
  }

  lemma SeqCoverContains(elements: seq<Value>, elements': seq<Value>, f: string)
    requires Covers(elements, elements')
    requires Contains(Seq(elements), f)
    ensures Contains(Seq(elements'), f)
  {
    var i :| 0 <= i < |elements| && Contains(elements[i], f);
    assert elements[i] in elements';
    var j :| 0 <= j < |elements'| && elements'[j] == elements[i];
    assert Contains(elements'[j], f);
  }

  /** Reordering a document's entries does not change the outcome of the search. */
  lemma DocPermutationInvariant(entries: seq<(string, Value)>, entries': seq<(string, Value)>, f: string)
    requires multiset(entries) == multiset(entries')
    ensures Contains(Doc(entries), f) <==> Contains(Doc(entries'), f)
  {
    SameMultisetCovers(entries, entries');
    SameMultisetCovers(entries', entries);
    if Contains(Doc(entries), f) {
      DocCoverContains(entries, entries', f);
    }
    if Contains(Doc(entries'), f) {
      DocCoverContains(entries', entries, f);
    }
  }

  /** Reordering a list's elements does not change the outcome of the search. */
  lemma SeqPermutationInvariant(elements: seq<Value>, elements': seq<Value>, f: string)
    requires multiset(elements) == multiset(elements')
    ensures Contains(Seq(elements), f) <==> Contains(Seq(elements'), f)
  {
    SameMultisetCovers(elements, elements');
    SameMultisetCovers(elements', elements);
    if Contains(Seq(elements), f) {
      SeqCoverContains(elements, elements', f);
    }
    if Contains(Seq(elements'), f) {
      SeqCoverContains(elements', elements, f);
    }
  }

  /**
   * The search as the connector runs it: a key lookup on a document, then the
   * values in order, or the elements of a list in order, returning as soon as
   * one of them contains the field.
   */
  method Search(v: Value, f: string) returns (found: bool)
    ensures found <==> f in AllKeys(v)
    decreases v
  {
    match v {
      case Doc(entries) =>
        if HasKey(entries, f) {
          return true;
        }
        var i := 0;
        while i < |entries|
          invariant 0 <= i <= |entries|
          invariant forall j :: 0 <= j < i ==> !Contains(entries[j].1, f)
        {
          var hit := Search(entries[i].1, f);
          if hit {
            return true;
          }
          i := i + 1;
        }
        return false;
      case Seq(elements) =>
        var i := 0;
        while i < |elements|
          invariant 0 <= i <= |elements|
          invariant forall j :: 0 <= j < i ==> !Contains(elements[j], f)
        {
          var hit := Search(elements[i], f);
          if hit {
            return true;
          }
          i := i + 1;
        }
        return false;
      case Scalar =>
        return false;
    }
  }
}

=== FILE: scenarios.dfy ===
/** Concrete configurations and filters, worked through the model. */
module Scenarios {
  import opened Wrappers
  import opened JavaSplit
  import opened PredicateTree
  import opened FilterConfig
  import opened FilterEnforcer

  /** A name usable as a token: it holds neither separator. */
  predicate Plain(name: string)
  {
    ',' !in name && ':' !in name
  }

  /** `collection:field` with a non-empty field splits into those two tokens. */
  lemma PairTokens(collection: string, field: string)
    requires Plain(collection) && Plain(field) && field != ""
    ensures Tokens(collection + [':'] + field) == [collection, field]
  {
    JoinTwo(collection, field, ':');
    SplitJoin([collection, field], ':');
    assert DropTrailingEmpty([collection, field]) == [collection, field];
  }

  lemma JoinTwo(p: string, q: string, c: char)
    ensures Join([p, q], c) == p + [c] + q
  {
    JoinCons(p, [q], c);
  }

  lemma JoinThree(p: string, q: string, r: string, c: char)
    ensures Join([p, q, r], c) == p + [c] + q + [c] + r
  {
    JoinCons(p, [q, r], c);
    JoinTwo(q, r, c);
    assert [p] + [q, r] == [p, q, r];
  }

  lemma SingletonRegistry(reg: Registry, c: string, fields: seq<Option<string>>)
    requires reg.Keys == {c} && reg[c] == fields
    ensures reg == map[c := fields]
  {
  }

  /** An entry without a colon is rejected at construction. */
  lemma MissingColonFails(entry: string)
    requires Plain(entry)
    ensures Parse(Some(entry)) == Failure(MalformedEntry(entry))
  {
    assert Entries(entry) == [entry];
    assert Tokens(entry) == [entry];
  }

  /** `"orders:"` loses its trailing empty token, leaving one token, and is rejected. */
  lemma EmptyFieldFails(collection: string)
    requires Plain(collection)
    ensures Parse(Some(collection + [':'])) == Failure(MalformedEntry(collection + [':']))
  {
    var entry := collection + [':'];
    assert ',' !in entry;
    assert Entries(entry) == [entry];
    JoinTwo(collection, "", ':');
    assert entry == collection + [':'] + "";
    SplitJoin([collection, ""], ':');
    DropTrailingEmptyShape([collection, ""]);
    assert |Tokens(entry)| < 2;
  }

  /** The empty configuration string is one empty entry, which is malformed. */
  lemma EmptyConfigFails()
    ensures Parse(Some("")) == Failure(MalformedEntry(""))
  {
  }

  /** An empty entry between two well-formed ones is malformed too: `"a:x,,b:y"` fails. */
  lemma EmptyMiddleEntryFails(a: string, x: string, b: string, y: string)
    requires Plain(a) && Plain(x) && Plain(b) && Plain(y) && x != "" && y != ""
    ensures Parse(Some(a + [':'] + x + [','] + [','] + b + [':'] + y)) == Failure(MalformedEntry(""))
  {
    var first := a + [':'] + x;
    var last := b + [':'] + y;
    var config := a + [':'] + x + [','] + [','] + b + [':'] + y;
    JoinThree(first, "", last, ',');
    assert config == first + [','] + "" + [','] + last;
    SplitJoin([first, "", last], ',');
    assert last[|last| - 1] == y[|y| - 1];
    assert DropTrailingEmpty([first, "", last]) == [first, "", last];
    PairTokens(a, x);
    assert AddEntries(map[], [first, "", last]) == AddEntries(Register(map[], a, x), ["", last]);
    assert Tokens("") == [""];
  }

  /**
   * Tokens after the second are ignored: `"c:f:g"` requires `f` on `c`. Only
   * `"c::"` escapes this, since its split drops both empty tokens.
   */
  lemma ExtraTokensIgnored(c: string, f: string, g: string)
    requires Plain(c) && Plain(f) && Plain(g) && (f != "" || g != "")
    ensures Parse(Some(c + [':'] + f + [':'] + g)) == Success(map[c := [Some(f)]])
  {
    var entry := c + [':'] + f + [':'] + g;
    assert ',' !in entry;
    assert Entries(entry) == [entry];
    JoinThree(c, f, g, ':');
    SplitJoin([c, f, g], ':');
    if g != "" {
      assert DropTrailingEmpty([c, f, g]) == [c, f, g];
    } else {
      assert [c, f, g][..2] == [c, f];
      assert DropTrailingEmpty([c, f, g]) == [c, f];
    }
    var reg := Register(map[], c, f);
    assert AddEntries(map[], [entry]) == AddEntries(reg, []);
    assert reg[c] == [Some(f)];
    SingletonRegistry(reg, c, [Some(f)]);
  }

  /** A trailing comma leaves only a trailing empty entry, which the split drops. */
  lemma TrailingCommaAccepted(c: string, f: string)
    requires Plain(c) && Plain(f) && f != ""
    ensures Parse(Some(c + [':'] + f + [','])) == Success(map[c := [Some(f)]])
  {
    var entry := c + [':'] + f;
    JoinTwo(entry, "", ',');
    assert c + [':'] + f + [','] == entry + [','] + "";
    SplitJoin([entry, ""], ',');
    assert DropTrailingEmpty([entry, ""]) == [entry];
    PairTokens(c, f);
    var reg := Register(map[], c, f);
    assert AddEntries(map[], [entry]) == AddEntries(reg, []);
    assert reg[c] == [Some(f)];
    SingletonRegistry(reg, c, [Some(f)]);
  }

  /** With an empty field the trailing comma does not help: `"c:,"` fails on its one entry `"c:"`. */
  lemma TrailingCommaEmptyFieldFails(c: string)
    requires Plain(c)
    ensures Parse(Some(c + [':'] + [','])) == Failure(MalformedEntry(c + [':']))
  {
    var entry := c + [':'];
    JoinTwo(entry, "", ',');
    assert c + [':'] + [','] == entry + [','] + "";
    SplitJoin([entry, ""], ',');
    assert DropTrailingEmpty([entry, ""]) == [entry];
    EmptyFieldFails(c);
  }

  /** A configuration of commas alone has no entries at all and requires nothing. */
  lemma OnlyCommasGiveEmptyRegistry()
    ensures Parse(Some(",,")) == Success(map[])
  {
    JoinThree("", "", "", ',');
    assert "" + [','] + "" + [','] + "" == ",,";
    SplitJoin(["", "", ""], ',');
    assert ["", "", ""][..2] == ["", ""];
    assert ["", ""][..1] == [""];
    assert [""][..0] == [];
    assert DropTrailingEmpty(["", "", ""]) == [];
    assert Entries(",,") == [];
    assert AddEntries(map[], []) == Success(map[]);
  }

  /** Nothing checks that tokens are non-empty: `":f"` requires `f` on the collection named `""`. */
  lemma EmptyCollectionNameAccepted(f: string)
    requires Plain(f) && f != ""
    ensures Parse(Some([':'] + f)) == Success(map["" := [Some(f)]])
  {
    var entry := [':'] + f;
    assert ',' !in entry;
    assert Entries(entry) == [entry];
    assert entry == "" + [':'] + f;
    PairTokens("", f);
    var reg := Register(map[], "", f);
    assert AddEntries(map[], [entry]) == AddEntries(reg, []);
    assert reg[""] == [Some(f)];
    SingletonRegistry(reg, "", [Some(f)]);
  }

  /** Two entries for one collection, `"orders:tenantId,orders:region"`, give its list in configuration order. */
  lemma TwoEntriesOneCollection(c: string, f: string, g: string)
    requires Plain(c) && Plain(f) && Plain(g) && f != "" && g != ""
    ensures Parse(Some(c + [':'] + f + [','] + c + [':'] + g)) == Success(map[c := [Some(f), Some(g)]])
  {
    var first := c + [':'] + f;
    var second := c + [':'] + g;
    JoinTwo(first, second, ',');
    assert c + [':'] + f + [','] + c + [':'] + g == first + [','] + second;
    SplitJoin([first, second], ',');
    assert second[|second| - 1] == g[|g| - 1];
    assert DropTrailingEmpty([first, second]) == [first, second];
    TwoEntriesAdd(c, f, g);
  }

  lemma TwoEntriesAdd(c: string, f: string, g: string)
    requires Plain(c) && Plain(f) && Plain(g) && f != "" && g != ""
    ensures AddEntries(map[], [c + [':'] + f, c + [':'] + g]) == Success(map[c := [Some(f), Some(g)]])
  {
    var first := c + [':'] + f;
    var second := c + [':'] + g;
    var reg1 := Register(map[], c, f);
    AddPairEntry(map[], [first, second], c, f);
    assert [first, second][1..] == [second];
    AddPairEntry(reg1, [second], c, g);
    assert [second][1..] == [];
    RegisterTwice(c, f, g);
  }

  /** Registering `f` and then `g` for `c` in an empty registry. */
  lemma RegisterTwice(c: string, f: string, g: string)
    ensures Register(Register(map[], c, f), c, g) == map[c := [Some(f), Some(g)]]
  {
    var reg2 := Register(Register(map[], c, f), c, g);
    assert reg2[c] == [Some(f), Some(g)] by {
      assert [Some(f)] + [Some(g)] == [Some(f), Some(g)];
    }
    SingletonRegistry(reg2, c, [Some(f), Some(g)]);
  }

  /** Processing an entry `c:f` registers `f` for `c`, then goes on with the rest. */
  lemma AddPairEntry(reg: Registry, entries: seq<string>, c: string, f: string)
    requires Plain(c) && Plain(f) && f != ""
    requires |entries| > 0 && entries[0] == c + [':'] + f
    ensures AddEntries(reg, entries) == AddEntries(Register(reg, c, f), entries[1..])
  {
    PairTokens(c, f);
  }

  /** The policy the worked filters below run against. */
  const OrdersPolicy: string := "orders:tenantId,orders:region"

  /** The registry `OrdersPolicy` parses to. */
  const OrdersRegistry: Registry := map["orders" := [Some("tenantId"), Some("region")]]

  /** `"orders:tenantId,orders:region"` requires `tenantId` and then `region` on `orders`. */
  lemma OrdersPolicyRegistry()
    ensures Parse(Some(OrdersPolicy)) == Success(OrdersRegistry)
  {
    assert OrdersPolicy == "orders" + [':'] + "tenantId" + [','] + "orders" + [':'] + "region";
    TwoEntriesOneCollection("orders", "tenantId", "region");
  }

  /** A filter on only one of the two required fields is rejected, naming the other. */
  lemma TopLevelMissingRegion()
    ensures Parse(Some(OrdersPolicy)).Success?
    ensures Check(Parse(Some(OrdersPolicy)).value, "orders", Doc([("tenantId", Scalar)]))
      == Rejected("orders", "region")
  {
    OrdersPolicyRegistry();
    MissingRegionRejected();
  }

  lemma MissingRegionRejected()
    ensures Check(OrdersRegistry, "orders", Doc([("tenantId", Scalar)])) == Rejected("orders", "region")
  {
    var filter := Doc([("tenantId", Scalar)]);
    DirectKeyFound(filter.entries, 0, "tenantId");
    assert !Contains(filter, "region") by {
      assert !HasKey(filter.entries, "region");
    }
  }

  /** A filter naming both fields at the top level is accepted. */
  lemma TopLevelBothAccepted()
    ensures Parse(Some(OrdersPolicy)).Success?
    ensures Check(Parse(Some(OrdersPolicy)).value, "orders",
      Doc([("tenantId", Scalar), ("region", Scalar)])) == Accepted
  {
    OrdersPolicyRegistry();
    BothKeysAccepted();
  }

  lemma BothKeysAccepted()
    ensures Check(OrdersRegistry, "orders", Doc([("tenantId", Scalar), ("region", Scalar)])) == Accepted
  {
    var filter := Doc([("tenantId", Scalar), ("region", Scalar)]);
    assert filter.entries[0].0 == "tenantId";
    assert filter.entries[1].0 == "region";
  }

  /** Both fields nested in documents inside an `and` list are found. */
  lemma NestedBothAccepted()
    ensures Parse(Some(OrdersPolicy)).Success?
    ensures Check(Parse(Some(OrdersPolicy)).value, "orders",
      Doc([("and", Seq([Doc([("tenantId", Scalar)]), Doc([("region", Scalar)])]))])) == Accepted
  {
    OrdersPolicyRegistry();
    NestedKeysAccepted();
  }

  lemma NestedKeysAccepted()
    ensures Check(OrdersRegistry, "orders",
      Doc([("and", Seq([Doc([("tenantId", Scalar)]), Doc([("region", Scalar)])]))])) == Accepted
  {
    var list := Seq([Doc([("tenantId", Scalar)]), Doc([("region", Scalar)])]);
    var filter := Doc([("and", list)]);
    AndListHasBoth();
    NestedInValueFound(filter.entries, 0, "tenantId");
    NestedInValueFound(filter.entries, 0, "region");
  }

  lemma AndListHasBoth()
    ensures Contains(Seq([Doc([("tenantId", Scalar)]), Doc([("region", Scalar)])]), "tenantId")
    ensures Contains(Seq([Doc([("tenantId", Scalar)]), Doc([("region", Scalar)])]), "region")
  {
    var a := Doc([("tenantId", Scalar)]);
    var b := Doc([("region", Scalar)]);
    DirectKeyFound(a.entries, 0, "tenantId");
    DirectKeyFound(b.entries, 0, "region");
    NestedInElementFound([a, b], 0, "tenantId");
    NestedInElementFound([a, b], 1, "region");
  }

  /** A collection without a policy accepts even the empty filter. */
  lemma UnconfiguredCollectionAccepted()
    ensures Parse(Some(OrdersPolicy)).Success?
    ensures Check(Parse(Some(OrdersPolicy)).value, "logs", Doc([])) == Accepted
  {
    OrdersPolicyRegistry();
    assert "logs" !in OrdersRegistry;
  }
}

=== FILE: sequences.dfy ===
/** Small facts about sequences, kept apart so that each is proved in a small context. */
module Sequences {

  lemma AppendAssoc<T>(a: seq<T>, b: seq<T>, c: seq<T>)
    ensures a + b + c == a + (b + c)
  {
  }

  lemma HeadTail<T>(xs: seq<T>)
    requires |xs| >= 1
    ensures xs == [xs[0]] + xs[1..]
  {
  }

  lemma WholeSuffix<T>(xs: seq<T>, from: nat)
    requires from <= |xs|
    ensures xs[from..|xs|] == xs[from..]
  {
  }

  /** Every item of `a` also occurs in `b`. */
  ghost predicate Covers<T>(a: seq<T>, b: seq<T>)
  {
    forall i :: 0 <= i < |a| ==> a[i] in b
  }

  /** A sequence is covered by any sequence with the same items, counted with multiplicity. */
  lemma SameMultisetCovers<T>(a: seq<T>, b: seq<T>)
    requires multiset(a) == multiset(b)
    ensures Covers(a, b)
  {
    forall i | 0 <= i < |a| ensures a[i] in b {
      assert a[i] in multiset(a);
    }
  }
}

=== FILE: wrappers.dfy ===
/** Failure-carrying result types shared by the other modules. */
module Wrappers {

  /** A value that may be absent; stands for a nullable Java reference. */
  datatype Option<+T> = None | Some(value: T)

  /** Either a computed value or the error that stopped the computation. */
  datatype Result<+T, +E> = Success(value: T) | Failure(error: E)
}
